=== FILE: README.md ===
# Temple Run simulation core in Dafny

This project models the per-tick simulation of a browser endless runner (`game.js`). The player runs in one of three lanes, jumps over falling obstacles and collects falling coins. The model covers these parts:

- **Lanes** (`lanes.dfy`): the 800 x 600 canvas and the three lane x-coordinates 300, 375 and 450.
- **Player** (`player.dfy`): the player record, horizontal smoothing toward the lane's x (20% of the remaining distance per tick), the jump guard, and jump physics. The physics is semi-implicit Euler integration with jump power -15 and gravity 0.8, clamped at ground level 450. The closed form of the jump arc is proved: a jump lasts exactly 39 ticks and peaks 148.2 above the ground on tick 19.
- **Input** (`input.dfy`): the held-key set and the per-tick lane controller `handleInput`, which runs the left and the right check in one call. It also covers swipe classification when a touch ends.
- **Spawner** (`spawner.dfy`): obstacle and coin spawning, driven by a stream of random draws in [0, 1). The draws are consumed in the order the game draws them: spawn chance, then lane, then kind.
- **Updater** (`updater.dfy`): falling, tall height, and off-screen pruning. It has a functional reference definition and the backward `splice` loop the game runs, and the two are proved equal.
- **Collisions** (`collisions.dfy`): the first-hit obstacle scan, and the backward coin pickup loop with its coin and score increments. Both are proved against declarative definitions.
- **GameLoop** (`game.dfy`): the game state, the `start` / `playing` / `gameOver` status, and the keyboard and touch events. It also holds `startGame`, `gameOver` and the playing branch of `gameLoop` as `Tick`. `Tick` is a composition of named steps, and `TickInPlace` runs the loops as written and is proved to compute `Tick`. The state invariant `Inv` is established by `StartGame`, kept by every event (`KeyDown`, `KeyUp`, `TouchStart`, `TouchEnd`) and kept by every tick (`TickKeepsInv`); inside a tick it may be broken between the spawn step and the entity update, since a new tall obstacle only takes its tall height when it first falls. It covers the lane range, the ground and jump state, `score == distance + 10 * coins`, the speed and distance formulas, and settled entities in the right lists.

Design notes:

- The host's random number generator, clock and input devices are parameters. Each tick takes a sequence of draws and returns the unused ones. Key and touch events are functions on the game state, delivered between ticks.
- Entity coordinates, sizes and the speed are integers, as in the game. The player's x, y and vertical velocity are exact Dafny `real`s. This idealises the game's IEEE-754 doubles: for example, `0.2` and `0.8` are exact here.
- Score formula and coin increments: every playing tick sets `score = distance + coins * 10`, and collecting a coin adds one coin and 10 points in the same tick. These two updates agree. `Tick` proves that after every playing tick `score == distance + 10 * coins`, whatever the score was before. So there is no double counting, and the model keeps both updates as the game does.
- Behaviours of `game.js` that the model keeps as written:
  - Restart and ordering:
    - `startGame` may be called from any status.
    - Held keys and the touch start point survive a restart.
    - Pruning keeps the survivors in their original order.
  - Keys and jumps:
    - Holding left and right in one tick: from lane 1 or 2 the player moves down and back up, consuming both; from lane 0 it moves up one lane and the left keys stay held.
    - A direction key held at the edge lane is not consumed.
    - A jump key starts a jump only while the run is on and `!isJumping`; the player's y is not checked.
  - Exact arithmetic:
    - A jump is airborne for 38 ticks and lands on tick 39.
    - When x already equals its target, smoothing leaves it exactly there; otherwise x approaches the lane's x without ever reaching it, so the collision lemmas are stated for a player within a distance of its lane's x.

## Model

| member | source | states |
|---|---|---|
| Lanes.LaneX | game.js:32-37 | lane i's x is 300 + 75i: the lanes are 75 apart, left to right |
| Player.InitialValid | game.js:17-30 | the starting player is in the centre lane at that lane's x, on the ground, at rest |
| Player.Approach | game.js:131-133 | one smoothing step keeps 80% of the remaining distance to the target, never overshoots, and reaches the target only if already there |
| Player.GlideDecay | game.js:131-133 | after n ticks toward a fixed target the remaining distance is 0.8^n times the initial one, and x stays between its start and the target |
| Player.GlideWithin | game.js:131-133 | starting at most 75 from the target, x is within 75 * 0.8^n of it after n ticks |
| Player.GlideSettles | game.js:131-133 | after a one-lane change x is within 38.4 of the new lane's x from the third tick, within 30.72 from the fourth and within 24.576 from the fifth |
| Player.StartJump | game.js:63-68 | a jump request from the ground sets velocity to -15 and marks the player airborne; while airborne it changes nothing; the invariant is kept |
| Player.StartJumpIdempotent | game.js:65-68 | a second jump request while airborne is a no-op |
| Player.UpdatePlayer | game.js:137-149 | when grounded nothing moves; when airborne y += v and v += 0.8, and reaching the ground clamps y to 450, zeroes v and ends the jump; y never goes below the ground; the player invariant is kept |
| Player.ArcRiseClosedForm | game.js:140-141 | the height gained after n airborne ticks is -15n + 0.4n(n-1) |
| Player.JumpArc | game.js:137-149 | for the first 38 ticks after take-off the player is airborne at ground + the closed-form rise, with velocity -15 + 0.8n, at the same x and lane |
| Player.JumpLands | game.js:137-149 | a jump from the ground is airborne on ticks 1-38 and lands exactly back in its starting state on tick 39 |
| Player.JumpPeak | game.js:137-149 | the arc never rises more than 148.2 above the ground and reaches that peak on tick 19 |
| Input.HandleInput | game.js:112-134 | outside a run nothing changes; the lane stays in 0..2 and moves at most one step; left alone, right alone and both together give the edge-clamped results; exactly the keys of a direction that moved are consumed; x - target shrinks by the factor 0.8 |
| Input.LeftAndRightCancel | game.js:115-129 | left and right held together in the centre lane leave the lane at 1 and consume both directions |
| Input.Swipe | game.js:95-108 | a lane moves down iff the swipe is mostly horizontal, more than 50 left and not at lane 0 (symmetrically right), and never by more than one; a jump starts iff the swipe is mostly vertical, more than 30 up and the player is grounded; an airborne player stays airborne; x and y never change, and the velocity changes only when a jump starts; lane range and player invariant are kept |
| Spawner.LaneOf | game.js:154 | floor(3r) for a draw r in [0,1) is a lane, and lane i is picked exactly by draws in [i/3, (i+1)/3) |
| Spawner.SpawnObstacle | game.js:152-164 | an obstacle is appended iff the first draw is below 0.02; it is an obstacle in the lane the second draw picks, at that lane's x, at y = -50, 40 x 50, tall iff the third draw exceeds 0.7; otherwise the list is unchanged; exactly the draws used are consumed |
| Spawner.SpawnCoin | game.js:167-179 | a coin is appended iff the first draw is below 0.03; it is a 30 x 30 coin in the lane the second draw picks, at that lane's x, at y = -30; otherwise the list is unchanged; exactly the draws used are consumed |
| Updater.Fallen | game.js:185-190 | an entity's y grows by exactly the speed, nothing else but a tall obstacle's height (to 80) changes |
| Updater.Advance | game.js:182-209 | the update never grows a list; every survivor is on or above y = 600 and every tall survivor has height 80 |
| Updater.UpdateEntities | game.js:184-196 | the backward walk with in-place update and splice yields exactly the reference update |
| Updater.AdvanceAppend | game.js:184-196 | the update distributes over concatenation, so survivors keep their relative order |
| Updater.AdvanceMembers | game.js:192-195 | an entity survives iff it is an old entity moved by the speed whose new y is at most 600 |
| Updater.AdvanceSettles | game.js:186-195 | entities in their lanes are settled after the update: in lane, at most 600, tall at height 80 |
| Updater.AdvanceKeepsKind | game.js:184-207 | a list of obstacles stays obstacles and a list of coins stays coins |
| Collisions.FirstHit | game.js:221-228 | the in-order scan that stops at the first hit reports a hit iff some obstacle is within 35 horizontally and overlaps vertically |
| Collisions.Uncollected | game.js:231-240 | the kept coins are never more than the coins before |
| Collisions.CollectCoins | game.js:231-240 | the backward pickup loop keeps exactly the untouched coins, adds one coin per touched coin and 10 points per coin collected |
| Collisions.UncollectedCount | game.js:236-237 | kept plus collected coins add up to the coins before |
| Collisions.UncollectedMembers | game.js:231-240 | a coin is kept iff it was present and is not within 30 horizontally with vertical overlap |
| Collisions.UncollectedAppend | game.js:231-237 | pickup distributes over concatenation, so kept coins keep their order |
| Collisions.AllTouchedNoneKept | game.js:231-240 | when every coin is touched, all are collected in the same pass |
| Collisions.SameLaneHit | game.js:222-224 | after four ticks of gliding toward its lane from at most one lane away, the player hits any vertically overlapping obstacle in that lane, and after five collects such a coin |
| Collisions.OtherLaneMiss | game.js:222-224 | a player within 40 of its lane's x never hits an obstacle in another lane, and within 45 never collects a coin in another lane |
| GameLoop.InitialInv | game.js:9-15 | the page-load state is in status start and satisfies the state invariant |
| GameLoop.StartGame | game.js:403-418 | from any state: status playing, every counter zero, speed 5, no entities, player grounded at rest in lane 1 at its x; invariant established; held keys and touch start kept |
| GameLoop.EndRun | game.js:423-424 | ending a run sets status gameOver and changes nothing else |
| GameLoop.KeyDown | game.js:60-70 | the key becomes held; a jump starts iff it is Space or ArrowUp, the game is playing and the player is grounded, and then only the jump flag and velocity change; otherwise the player is unchanged; nothing else changes; invariant kept |
| GameLoop.KeyUp | game.js:72-74 | the key is no longer held and nothing else changes |
| GameLoop.TouchStart | game.js:80-84 | the touch start is recorded and nothing else changes |
| GameLoop.TouchEnd | game.js:86-109 | outside a run nothing changes; during a run the player becomes the swipe of the deltas from the touch start, and nothing else changes |
| GameLoop.CheckCollisions | game.js:212-241 | an obstacle hit ends the run with coins, score and coin list untouched; otherwise exactly the touched coins are removed, and coins grow by their number and score by 10 per coin |
| GameLoop.BeginFrame | game.js:358-365 | the frame count grows by one and speed, distance and score are re-derived from it (speed 5 + f/500, distance f/10, score distance + 10 coins); nothing else changes |
| GameLoop.MovePlayer | game.js:367-371 | the player becomes the lane controller's result followed by one physics step, and the keys are those the lane controller leaves; the lane stays in range and moves at most one step; the player invariant is kept; nothing else changes |
| GameLoop.SpawnEntities | game.js:373-375 | the obstacle spawner runs first on the draws and the coin spawner on what it leaves; each list grows by at most one, new entities are in lanes and of the right kind, and two to five draws are consumed; nothing else changes |
| GameLoop.UpdateObjects | game.js:377-378 | both lists become their reference update at the tick's speed; afterwards all entities are settled and each list is no longer than before |
| GameLoop.Tick | game.js:353-395 | outside a run a tick changes nothing and uses no draws; a playing tick counts one frame, derives speed and distance, leaves score == distance + 10 coins, and never returns to start; the player, keys and obstacle list are exactly those the move, spawn and update steps produce; the run ends exactly when an obstacle is hit, and then only the status changes; otherwise the untouched coins stay and the coin count grows by the number touched |
| GameLoop.TickInPlace | game.js:357-381 | the tick run with the game's loops (backward splices, early-exit scan) computes exactly Tick |
| GameLoop.CheckCollisionsKeepsInv | game.js:221-240 | the collision step keeps the state invariant |
| GameLoop.TickKeepsInv | game.js:357-381 | every tick keeps the state invariant: lane in 0..2, player on or above ground and at rest when not jumping, score formula, settled entities |
| GameLoop.TickMonotone | game.js:358-365 | during a run speed, distance and score never decrease from tick to tick |
| GameLoop.TickStatus | game.js:357 | a tick keeps start and gameOver, and from playing reaches only playing or gameOver |
| GameLoop.Run | game.js:353-395 | any number of ticks keeps the invariant; outside a run nothing changes however many ticks pass; during a run the status never returns to start, and after n ticks the frame count has grown by at most n, by exactly n if the run is still on |
| GameLoop.SameLaneCrash | game.js:221-227 | after four ticks of gliding toward its lane from at most one lane away, a vertically overlapping obstacle in that lane ends the run |
| GameLoop.AllTouchedCollected | game.js:231-240 | when no obstacle is hit and every coin is touched, all coins are collected in that one tick, for one coin and 10 points each |

## Left out

- Canvas drawing (`drawGround`, `drawPlayer`, `drawObstacles`, `drawCoins`, `drawBackground`, `clearRect`): rendering only; it never changes simulation state.
- DOM writes (`updateUI`, the score and screen updates in `gameOver` and `startGame`) and the two button listeners: these are I/O. `startGame` and `gameOver` are modelled by their state changes.
- Event plumbing (`addEventListener`, `preventDefault`, `requestAnimationFrame`): events are functions on the game state and the host loop is `Tick` or `Run`.
- `Math.random`: a foreign call. The draws are a parameter stream of values in [0, 1).
- `initGround` and `groundSegments`: they never affect the simulation.
- Coin `rotation`: presentation only.
- IEEE-754 rounding of the player's x, y and velocity: these are exact reals. So the arc's landing tick and peak are exact-arithmetic results.
- `playerRect` in `checkCollisions`: built but never read.
- The `width` of obstacles and coins is stored but, as in the game, never used by a collision test.
- GameLoop.Tick: requires five draws up front, the most one tick can use, even when fewer are consumed. This stands in for the game's inexhaustible random source.
- Input.HandleInput: the `gameState` guard is a `playing` parameter, because the function is only called from the playing branch of the loop.

=== FILE: collisions.dfy ===
/** The collision resolver. The horizontal test compares the player's x
    with the entity's x only (an arcade-style threshold, not a box
    overlap); the vertical test is a true overlap of the two spans. */
module Collisions {
  import opened Lanes
  import opened Player
  import opened Entities

  /** An obstacle is hit within 35 horizontally. */
  const HitDistance: real := 35.0
  /** A coin is picked up within 30 horizontally. */
  const PickupDistance: real := 30.0

  /** The player's vertical span [y, y + 50) meets the entity's. */
  predicate Overlaps(p: Player, e: Entity) {
    p.y < (e.y + e.height) as real && p.y + PlayerHeight > e.y as real
  }

  predicate HitsObstacle(p: Player, o: Entity) {
    Abs(p.x - o.x as real) < HitDistance && Overlaps(p, o)
  }

  predicate TouchesCoin(p: Player, c: Entity) {
    Abs(p.x - c.x as real) < PickupDistance && Overlaps(p, c)
  }

  predicate AnyHit(p: Player, obstacles: seq<Entity>) {
    exists i :: 0 <= i < |obstacles| && HitsObstacle(p, obstacles[i])
  }

  /** The obstacle test as the game performs it: scan in order and stop at
      the first obstacle hit. */
  method FirstHit(p: Player, obstacles: seq<Entity>) returns (hit: bool)
    ensures hit <==> AnyHit(p, obstacles)
  {
    var i := 0;
    while i < |obstacles|
      invariant 0 <= i <= |obstacles|
      invariant forall j :: 0 <= j < i ==> !HitsObstacle(p, obstacles[j])
    {
      if HitsObstacle(p, obstacles[i]) {
        return true;
      }
      i := i + 1;
    }
    return false;
  }

  /** The reference definition of coin pickup: the coins not touched, in
      their original order. */
  function Uncollected(p: Player, coins: seq<Entity>): (r: seq<Entity>)
    ensures |r| <= |coins|
  {
    if coins == [] then []
    else (if TouchesCoin(p, coins[0]) then [] else [coins[0]]) + Uncollected(p, coins[1..])
  }

  /** The number of coins the player touches. */
  function Touched(p: Player, coins: seq<Entity>): nat
  {
    if coins == [] then 0
    else (if TouchesCoin(p, coins[0]) then 1 else 0) + Touched(p, coins[1..])
  }

  /** Every coin is either kept or collected. */
  lemma {:induction false} UncollectedCount(p: Player, coins: seq<Entity>)
    ensures |Uncollected(p, coins)| + Touched(p, coins) == |coins|
  {
    if coins != [] {
      UncollectedCount(p, coins[1..]);
    }
  }

  /** A coin is kept iff it was there and is not touched. */
  lemma {:induction false} UncollectedMembers(p: Player, coins: seq<Entity>, c: Entity)
    ensures c in Uncollected(p, coins) <==> c in coins && !TouchesCoin(p, c)
  {
    if coins != [] {
      UncollectedMembers(p, coins[1..], c);
      assert coins == [coins[0]] + coins[1..];
    }
  }

  /** When the player touches every coin, none is kept. */
  lemma {:induction false} AllTouchedNoneKept(p: Player, coins: seq<Entity>)
    requires forall i :: 0 <= i < |coins| ==> TouchesCoin(p, coins[i])
    ensures Uncollected(p, coins) == []
  {
    if coins != [] {
      AllTouchedNoneKept(p, coins[1..]);
    }
  }

  /** Pickup works coin by coin: the kept coins keep their relative order. */
  lemma {:induction false} UncollectedAppend(p: Player, a: seq<Entity>, b: seq<Entity>)
    ensures Uncollected(p, a + b) == Uncollected(p, a) + Uncollected(p, b)
  {
    if a == [] {
      assert a + b == b;
    } else {
      assert (a + b)[1..] == a[1..] + b;
      UncollectedAppend(p, a[1..], b);
    }
  }

  /** One step of the backward walk: the coin at index i joins the suffix
      after it. */
  lemma PickupStep(p: Player, coins: seq<Entity>, i: int)
    requires 0 <= i < |coins|
    ensures coins[..i + 1] == coins[..i] + [coins[i]]
    ensures Uncollected(p, coins[i..]) ==
              (if TouchesCoin(p, coins[i]) then [] else [coins[i]]) + Uncollected(p, coins[i + 1..])
    ensures Touched(p, coins[i..]) == (if TouchesCoin(p, coins[i]) then 1 else 0) + Touched(p, coins[i + 1..])
  {
    assert coins[i..][1..] == coins[i + 1..];
  }

  /** Coin pickup as the game performs it: walk the coins from the back and,
      for each one touched, add a coin, splice it out and add 10 points. */
  method CollectCoins(p: Player, coinObjects: seq<Entity>, coins: int, score: int)
    returns (remaining: seq<Entity>, coins': int, score': int)
    ensures remaining == Uncollected(p, coinObjects)
    ensures coins' == coins + Touched(p, coinObjects)
    ensures score' == score + 10 * Touched(p, coinObjects)
  {
    remaining, coins', score' := coinObjects, coins, score;
    var i := |coinObjects| - 1;
    while i >= 0
      invariant -1 <= i < |coinObjects|
      invariant remaining == coinObjects[..i + 1] + Uncollected(p, coinObjects[i + 1..])
      invariant coins' == coins + Touched(p, coinObjects[i + 1..])
      invariant score' - score == 10 * (coins' - coins)
    {
      PickupStep(p, coinObjects, i);
      ghost var kept := Uncollected(p, coinObjects[i + 1..]);
      assert remaining[..i] == coinObjects[..i] && remaining[i] == coinObjects[i] && remaining[i + 1..] == kept;
      if TouchesCoin(p, remaining[i]) {
        coins' := coins' + 1;
        remaining := remaining[..i] + remaining[i + 1..];
        score' := score' + 10;
      } else {
        remaining := remaining[..i] + [remaining[i]] + remaining[i + 1..];
      }
      i := i - 1;
    }
    assert coinObjects[0..] == coinObjects;
  }

  /** Once the player has glided for four ticks toward its lane from at
      most one lane away, an obstacle in that lane that overlaps it
      vertically is hit; from the fifth tick a coin there is collected. */
  lemma SameLaneHit(p: Player, o: Entity, x0: real, n: nat)
    requires ValidLane(p.lane) && InLane(o) && o.lane == p.lane
    requires Abs(x0 - LaneX(p.lane) as real) <= 75.0 && n >= 4
    requires p.x == Glide(x0, LaneX(p.lane) as real, n)
    requires Overlaps(p, o)
    ensures HitsObstacle(p, o)
    ensures n >= 5 ==> TouchesCoin(p, o)
  {
    GlideSettles(x0, LaneX(p.lane) as real, n);
  }

  /** A player within 40 of its own lane's x never hits an obstacle in
      another lane, and within 45 never collects a coin in another lane,
      whatever the heights. */
  lemma OtherLaneMiss(p: Player, o: Entity)
    requires ValidLane(p.lane) && InLane(o) && p.lane != o.lane
    ensures Abs(p.x - LaneX(p.lane) as real) <= 40.0 ==> !HitsObstacle(p, o)
    ensures Abs(p.x - LaneX(p.lane) as real) <= 45.0 ==> !TouchesCoin(p, o)
  {
    LanesApart(p.lane, o.lane);
  }
}

=== FILE: entities.dfy ===
/** Obstacles and coins: boxes that enter at the top of the playfield in a
    lane and fall toward the bottom at the current game speed. */
module Entities {
  import opened Lanes

  datatype Kind = Normal | Tall

  /** Both kinds of entity share position, size and lane; an obstacle also
      has a kind. (A coin's rotation is presentation only and is left out.) */
  datatype Entity =
    | Obstacle(x: int, y: int, width: int, height: int, lane: int, kind: Kind)
    | Coin(x: int, y: int, width: int, height: int, lane: int)

  const ObstacleWidth: int := 40
  const ObstacleHeight: int := 50
  const TallHeight: int := 80
  const ObstacleStartY: int := -50
  const CoinSize: int := 30
  const CoinStartY: int := -30
  /** An entity whose y passes this (the canvas height) is off-screen. */
  const Bottom: int := CanvasHeight

  /** An entity sits in a lane, at that lane's x. */
  predicate InLane(e: Entity) {
    ValidLane(e.lane) && e.x == LaneX(e.lane)
  }

  /** The state every entity is in between ticks: in a lane, on or above
      the bottom, and a tall obstacle already has its tall height. */
  predicate Settled(e: Entity) {
    && InLane(e)
    && e.y <= Bottom
    && (e.Obstacle? && e.kind == Tall ==> e.height == TallHeight)
  }
}

=== FILE: game.dfy ===
/** The run controller: the game state, the start / playing / game-over
    state machine, the events the host delivers between ticks, and the
    per-tick pass of a run. */
module GameLoop {
  import opened Lanes
  import opened Player
  import opened Input
  import opened Entities
  import opened Spawner
  import opened Updater
  import opened Collisions

  datatype Status = Start | Playing | GameOver

  /** Everything the simulation owns. `keys` is the set of keys held down;
      `touchStartX`/`touchStartY` are where the current touch began. */
  datatype Game = Game(
    status: Status,
    score: int,
    coins: int,
    distance: int,
    speed: int,
    frameCount: int,
    player: Player,
    obstacles: seq<Entity>,
    coinObjects: seq<Entity>,
    keys: set<Key>,
    touchStartX: real,
    touchStartY: real)

  const BaseSpeed: int := 5
  /** The speed grows by one every this many ticks. */
  const SpeedRamp: int := 500
  /** The distance grows by one every this many ticks. */
  const DistanceUnit: int := 10
  /** The most random draws one tick consumes: three for an obstacle, two for a coin. */
  const DrawsPerTick: int := 5

  /** The state invariant, true between any two steps: counters derived
      from the frame count, the score formula, a valid player, and settled
      entities of the right kind in each list. */
  predicate Inv(g: Game) {
    Valid(g.player) && Counters(g) && EntitiesSettled(g)
  }

  /** The state when the page loads, before the first start. */
  function Initial(): Game {
    Game(Start, 0, 0, 0, BaseSpeed, 0, StartingPlayer(), [], [], {}, 0.0, 0.0)
  }

  lemma InitialInv()
    ensures Inv(Initial()) && Initial().status == Start
  {
  }

  /** Start or restart a run, from any state: every counter back to zero,
      the base speed, no entities, and the player grounded in the centre
      lane. Held keys and the touch start are not reset. */
  function StartGame(g: Game): (r: Game)
    ensures Inv(r)
    ensures r.status == Playing
    ensures r.score == 0 && r.coins == 0 && r.distance == 0 && r.frameCount == 0 && r.speed == BaseSpeed
    ensures r.obstacles == [] && r.coinObjects == []
    ensures r.player.lane == 1 && r.player.x == LaneX(1) as real
    ensures !r.player.isJumping && r.player.y == GroundY && r.player.jumpVelocity == 0.0
    ensures r.keys == g.keys && r.touchStartX == g.touchStartX && r.touchStartY == g.touchStartY
  {
    g.(status := Playing, score := 0, coins := 0, distance := 0, speed := BaseSpeed, frameCount := 0,
       obstacles := [], coinObjects := [], player := StartingPlayer())
  }

  /** End the run: only the status changes; the counters stay as they are
      for display. */
  function EndRun(g: Game): (r: Game)
    ensures r.status == GameOver
    ensures r.(status := g.status) == g
  {
    g.(status := GameOver)
  }

  /** A key goes down: it is held from now on, and a jump key starts a jump
      during a run. */
  function KeyDown(g: Game, k: Key): (r: Game)
    ensures k in r.keys && r.keys - {k} == g.keys - {k}
    ensures r.player.isJumping != g.player.isJumping <==> IsJumpKey(k) && g.status == Playing && !g.player.isJumping
    ensures r.player.isJumping != g.player.isJumping ==> r.player.jumpVelocity == JumpPower
    ensures r.player.x == g.player.x && r.player.y == g.player.y && r.player.lane == g.player.lane
    ensures r.player.isJumping == g.player.isJumping ==> r.player == g.player
    ensures r.(keys := g.keys, player := g.player) == g
    ensures Inv(g) ==> Inv(r)
  {
    var g' := g.(keys := g.keys + {k});
    if IsJumpKey(k) && g.status == Playing then g'.(player := StartJump(g.player)) else g'
  }

  /** A key goes up: it is no longer held. */
  function KeyUp(g: Game, k: Key): (r: Game)
    ensures k !in r.keys && r.keys + {k} == g.keys + {k}
    ensures r.(keys := g.keys) == g
    ensures Inv(g) ==> Inv(r)
  {
    g.(keys := g.keys - {k})
  }

  /** A touch begins: remember where. */
  function TouchStart(g: Game, x: real, y: real): (r: Game)
    ensures r.touchStartX == x && r.touchStartY == y
    ensures r.(touchStartX := g.touchStartX, touchStartY := g.touchStartY) == g
    ensures Inv(g) ==> Inv(r)
  {
    g.(touchStartX := x, touchStartY := y)
  }

  /** A touch ends: during a run, the swipe from the touch start is
      classified into a jump, a lane change or nothing. */
  function TouchEnd(g: Game, x: real, y: real): (r: Game)
    ensures g.status != Playing ==> r == g
    ensures g.status == Playing ==> r.player == Swipe(g.player, x - g.touchStartX, y - g.touchStartY)
    ensures r.(player := g.player) == g
    ensures Inv(g) ==> Inv(r)
  {
    if g.status != Playing then g
    else g.(player := Swipe(g.player, x - g.touchStartX, y - g.touchStartY))
  }

  /** The collision step: a hit obstacle ends the run and changes nothing
      else; otherwise every coin the player touches is collected, for one
      coin and 10 points each, and the rest stay in order. */
  function CheckCollisions(g: Game): (r: Game)
    ensures AnyHit(g.player, g.obstacles) ==> r == EndRun(g)
    ensures !AnyHit(g.player, g.obstacles) ==>
              && r.(coinObjects := g.coinObjects, coins := g.coins, score := g.score) == g
              && r.coinObjects == Uncollected(g.player, g.coinObjects)
              && r.coins - g.coins == |g.coinObjects| - |r.coinObjects|
              && r.score - g.score == 10 * (r.coins - g.coins)
              && (forall c :: c in r.coinObjects <==> c in g.coinObjects && !TouchesCoin(g.player, c))
  {
    if AnyHit(g.player, g.obstacles) then EndRun(g)
    else
      var k := Touched(g.player, g.coinObjects);
      UncollectedCount(g.player, g.coinObjects);
      forall c ensures c in Uncollected(g.player, g.coinObjects) <==> c in g.coinObjects && !TouchesCoin(g.player, c) {
        UncollectedMembers(g.player, g.coinObjects, c);
      }
      g.(coinObjects := Uncollected(g.player, g.coinObjects), coins := g.coins + k, score := g.score + 10 * k)
  }

  /** The counters a playing tick derives from the frame count. */
  predicate Counters(g: Game) {
    && g.frameCount >= 0
    && g.coins >= 0
    && g.speed == BaseSpeed + g.frameCount / SpeedRamp
    && g.distance == g.frameCount / DistanceUnit
    && g.score == g.distance + 10 * g.coins
  }

  /** Every entity is in a lane and in the right list. */
  predicate EntitiesInLanes(g: Game) {
    && (forall i :: 0 <= i < |g.obstacles| ==> g.obstacles[i].Obstacle? && InLane(g.obstacles[i]))
    && (forall i :: 0 <= i < |g.coinObjects| ==> g.coinObjects[i].Coin? && InLane(g.coinObjects[i]))
  }

  /** Every entity is settled and in the right list. */
  predicate EntitiesSettled(g: Game) {
    && (forall i :: 0 <= i < |g.obstacles| ==> g.obstacles[i].Obstacle? && Settled(g.obstacles[i]))
    && (forall i :: 0 <= i < |g.coinObjects| ==> g.coinObjects[i].Coin? && Settled(g.coinObjects[i]))
  }

  /** The first step of a playing tick: count the frame and derive speed,
      distance and score from it; the score is set from the formula
      whatever it was before. */
  function BeginFrame(g: Game): (r: Game)
    requires g.frameCount >= 0 && g.coins >= 0
    ensures Counters(r)
    ensures r.frameCount == g.frameCount + 1
    ensures r.(frameCount := g.frameCount, speed := g.speed, distance := g.distance, score := g.score) == g
  {
    var frame := g.frameCount + 1;
    var distance := frame / DistanceUnit;
    g.(frameCount := frame, speed := BaseSpeed + frame / SpeedRamp, distance := distance,
       score := distance + g.coins * 10)
  }

  /** The player steps of a playing tick: the lane controller, then jump
      physics. */
  function MovePlayer(g: Game): (r: Game)
    requires ValidLane(g.player.lane)
    ensures ValidLane(r.player.lane)
    ensures Valid(g.player) ==> Valid(r.player)
    ensures -1 <= r.player.lane - g.player.lane <= 1
    ensures r.player == UpdatePlayer(HandleInput(true, g.player, g.keys).0)
    ensures r.keys == HandleInput(true, g.player, g.keys).1
    ensures r.(player := g.player, keys := g.keys) == g
  {
    var (moved, keys) := HandleInput(true, g.player, g.keys);
    g.(player := UpdatePlayer(moved), keys := keys)
  }

  /** The spawn steps of a playing tick: maybe an obstacle, then maybe a
      coin, each appended to its list. */
  function SpawnEntities(g: Game, draws: seq<real>): (r: (Game, seq<real>))
    requires ValidDraws(draws) && |draws| >= DrawsPerTick
    ensures r.0.obstacles == SpawnObstacle(g.obstacles, draws).0
    ensures (r.0.coinObjects, r.1) == SpawnCoin(g.coinObjects, SpawnObstacle(g.obstacles, draws).1)
    ensures EntitiesInLanes(g) ==> EntitiesInLanes(r.0)
    ensures r.0.(obstacles := g.obstacles, coinObjects := g.coinObjects) == g
    ensures |g.obstacles| <= |r.0.obstacles| <= |g.obstacles| + 1
    ensures |g.coinObjects| <= |r.0.coinObjects| <= |g.coinObjects| + 1
    ensures ValidDraws(r.1) && |draws| - DrawsPerTick <= |r.1| <= |draws| - 2
  {
    var (obstacles, rest1) := SpawnObstacle(g.obstacles, draws);
    var (coinObjects, rest2) := SpawnCoin(g.coinObjects, rest1);
    (g.(obstacles := obstacles, coinObjects := coinObjects), rest2)
  }

  /** The entity update step of a playing tick, at the tick's speed. */
  function UpdateObjects(g: Game): (r: Game)
    ensures r.obstacles == Advance(g.obstacles, g.speed) && r.coinObjects == Advance(g.coinObjects, g.speed)
    ensures EntitiesInLanes(g) ==> EntitiesSettled(r)
    ensures r.(obstacles := g.obstacles, coinObjects := g.coinObjects) == g
    ensures |r.obstacles| <= |g.obstacles| && |r.coinObjects| <= |g.coinObjects|
  {
    var r := g.(obstacles := Advance(g.obstacles, g.speed), coinObjects := Advance(g.coinObjects, g.speed));
    assert EntitiesInLanes(g) ==> EntitiesSettled(r) by {
      if EntitiesInLanes(g) {
        AdvanceSettles(g.obstacles, g.speed);
        AdvanceKeepsKind(g.obstacles, g.speed, true);
        AdvanceSettles(g.coinObjects, g.speed);
        AdvanceKeepsKind(g.coinObjects, g.speed, false);
      }
    }
    r
  }

  /** The collision step keeps the state invariant. */
  lemma CheckCollisionsKeepsInv(g: Game)
    requires Inv(g)
    ensures Inv(CheckCollisions(g))
  {
    var r := CheckCollisions(g);
    if !AnyHit(g.player, g.obstacles) {
      forall i | 0 <= i < |r.coinObjects|
        ensures r.coinObjects[i].Coin? && Settled(r.coinObjects[i])
      {
        assert r.coinObjects[i] in g.coinObjects;
      }
    }
  }

  /** One tick of the host's animation loop. Outside a run nothing happens.
      During a run: count the frame, derive speed, distance and score,
      then run the lane controller, jump physics, the two spawners, the
      entity updater and the collision step, in that order. Returns the
      new state and the unused random draws. */
  function Tick(g: Game, draws: seq<real>): (r: (Game, seq<real>))
    requires ValidLane(g.player.lane) && g.frameCount >= 0 && g.coins >= 0
    requires ValidDraws(draws) && |draws| >= DrawsPerTick
    ensures g.status != Playing ==> r == (g, draws)
    ensures g.status == Playing ==>
              && r.0.status != Start
              && r.0.frameCount == g.frameCount + 1
              && r.0.speed == BaseSpeed + r.0.frameCount / SpeedRamp
              && r.0.distance == r.0.frameCount / DistanceUnit
              && r.0.score == r.0.distance + 10 * r.0.coins
              && (r.0.status == GameOver ==> r.0.coins == g.coins)
              && (r.0.status == Playing ==> r.0.coins >= g.coins)
    ensures g.status == Playing ==>
              var g3 := UpdateObjects(SpawnEntities(MovePlayer(BeginFrame(g)), draws).0);
              && (r.0.status == GameOver <==> AnyHit(g3.player, g3.obstacles))
              && (r.0.status == Playing ==> r.0.coinObjects == Uncollected(g3.player, g3.coinObjects))
              && (r.0.status == Playing ==> r.0.coins == g.coins + Touched(g3.player, g3.coinObjects))
              && r.0.(status := g3.status, coinObjects := g3.coinObjects, coins := g3.coins, score := g3.score) == g3
              && (r.0.status == GameOver ==> r.0 == EndRun(g3))
    ensures ValidDraws(r.1) && |draws| - DrawsPerTick <= |r.1| <= |draws|
  {
    if g.status != Playing then (g, draws)
    else
      var g1 := MovePlayer(BeginFrame(g));
      var (g2, rest) := SpawnEntities(g1, draws);
      (CheckCollisions(UpdateObjects(g2)), rest)
  }

  /** The tick as the game performs it, with the backward splice loops of
      the entity updater and the coin pickup and the early-exit obstacle
      scan: it computes exactly Tick. */
  method TickInPlace(g: Game, draws: seq<real>) returns (r: Game, rest: seq<real>)
    requires ValidLane(g.player.lane) && g.frameCount >= 0 && g.coins >= 0
    requires ValidDraws(draws) && |draws| >= DrawsPerTick
    ensures (r, rest) == Tick(g, draws)
  {
    if g.status != Playing {
      return g, draws;
    }
    var g1 := MovePlayer(BeginFrame(g));
    var spawned := SpawnEntities(g1, draws);
    var g2 := spawned.0;
    rest := spawned.1;
    var obstacles := UpdateEntities(g2.obstacles, g2.speed);
    var coinObjects := UpdateEntities(g2.coinObjects, g2.speed);
    var g3 := g2.(obstacles := obstacles, coinObjects := coinObjects);
    assert g3 == UpdateObjects(g2);
    assert Tick(g, draws) == (CheckCollisions(g3), rest);
    var hit := FirstHit(g3.player, g3.obstacles);
    if hit {
      r := EndRun(g3);
    } else {
      var remaining, coins, score := CollectCoins(g3.player, g3.coinObjects, g3.coins, g3.score);
      UncollectedCount(g3.player, g3.coinObjects);
      r := g3.(coinObjects := remaining, coins := coins, score := score);
    }
    assert r == CheckCollisions(g3);
  }

  /** A tick keeps the state invariant. */
  lemma TickKeepsInv(g: Game, draws: seq<real>)
    requires Inv(g)
    requires ValidDraws(draws) && |draws| >= DrawsPerTick
    ensures Inv(Tick(g, draws).0)
  {
    if g.status == Playing {
      var g1 := MovePlayer(BeginFrame(g));
      var (g2, rest) := SpawnEntities(g1, draws);
      var g3 := UpdateObjects(g2);
      assert Valid(g3.player) && Counters(g3) && EntitiesSettled(g3);
      CheckCollisionsKeepsInv(g3);
    }
  }

  /** Speed and distance never decrease during a run. */
  lemma TickMonotone(g: Game, draws: seq<real>)
    requires Inv(g) && g.status == Playing
    requires ValidDraws(draws) && |draws| >= DrawsPerTick
    ensures Tick(g, draws).0.speed >= g.speed
    ensures Tick(g, draws).0.distance >= g.distance
    ensures Tick(g, draws).0.score >= g.score
  {
  }

  /** The state machine: a tick keeps Start and GameOver, and from Playing
      either stays or ends the run; only StartGame leaves Start or
      GameOver. */
  lemma TickStatus(g: Game, draws: seq<real>)
    requires Inv(g)
    requires ValidDraws(draws) && |draws| >= DrawsPerTick
    ensures g.status != Playing ==> Tick(g, draws).0.status == g.status
    ensures g.status == Playing ==> Tick(g, draws).0.status in {Playing, GameOver}
  {
  }

  /** n ticks in a row, each taking its draws from the front of the stream.
      Outside a run nothing changes, however many ticks pass (so the final
      score, coins and distance stay on display until the next start), and
      while a run lasts every tick counts one frame. */
  function Run(g: Game, draws: seq<real>, n: nat): (r: (Game, seq<real>))
    requires Inv(g)
    requires ValidDraws(draws) && |draws| >= DrawsPerTick * n
    ensures Inv(r.0) && ValidDraws(r.1)
    ensures |r.1| >= |draws| - DrawsPerTick * n
    ensures g.status != Playing ==> r == (g, draws)
    ensures g.status == Playing ==> r.0.status != Start
    ensures r.0.frameCount <= g.frameCount + n
    ensures g.status == Playing && r.0.status == Playing ==> r.0.frameCount == g.frameCount + n
    decreases n
  {
    if n == 0 then (g, draws)
    else
      TickKeepsInv(g, draws);
      var t := Tick(g, draws);
      Run(t.0, t.1, n - 1)
  }

  /** A player that has glided for four ticks toward its lane, from at most
      one lane away, crashes into any obstacle in that lane that overlaps it
      vertically: the run ends. */
  lemma SameLaneCrash(g: Game, i: int, x0: real, n: nat)
    requires 0 <= i < |g.obstacles|
    requires ValidLane(g.player.lane) && InLane(g.obstacles[i]) && g.obstacles[i].lane == g.player.lane
    requires Abs(x0 - LaneX(g.player.lane) as real) <= 75.0 && n >= 4
    requires g.player.x == Glide(x0, LaneX(g.player.lane) as real, n)
    requires Overlaps(g.player, g.obstacles[i])
    ensures CheckCollisions(g) == EndRun(g)
  {
    SameLaneHit(g.player, g.obstacles[i], x0, n);
  }

  /** Every coin touched in a tick is collected in that tick, not just the
      first: with no obstacle hit and every coin touched, all of them are
      collected at once. */
  lemma AllTouchedCollected(g: Game)
    requires !AnyHit(g.player, g.obstacles)
    requires forall i :: 0 <= i < |g.coinObjects| ==> TouchesCoin(g.player, g.coinObjects[i])
    ensures CheckCollisions(g).coinObjects == []
    ensures CheckCollisions(g).coins == g.coins + |g.coinObjects|
    ensures CheckCollisions(g).score == g.score + 10 * |g.coinObjects|
  {
    AllTouchedNoneKept(g.player, g.coinObjects);
  }
}

=== FILE: input.dfy ===
/** Player input: held keyboard keys, consumed once per tick by the lane
    controller, and touch swipes, classified when the finger lifts. */
module Input {
  import opened Lanes
  import opened Player

  /** The keys the game reads; every other key is `OtherKey`. */
  datatype Key = Space | ArrowUp | ArrowLeft | ArrowRight | LowerA | UpperA | LowerD | UpperD | OtherKey

  const LeftKeys: set<Key> := {ArrowLeft, LowerA, UpperA}
  const RightKeys: set<Key> := {ArrowRight, LowerD, UpperD}

  /** Space and ArrowUp request a jump when pressed. */
  predicate IsJumpKey(k: Key) {
    k == Space || k == ArrowUp
  }

  predicate LeftHeld(keys: set<Key>) {
    ArrowLeft in keys || LowerA in keys || UpperA in keys
  }

  predicate RightHeld(keys: set<Key>) {
    ArrowRight in keys || LowerD in keys || UpperD in keys
  }

  /** A swipe must travel further than this horizontally to change lane. */
  const SwipeLaneDistance: real := 50.0
  /** A swipe must travel further than this upward to jump. */
  const SwipeJumpDistance: real := 30.0

  /** The lane controller, run once per tick: a held left key moves one lane
      left unless in lane 0, then a held right key moves one lane right
      unless in lane 2 (both run in one call), and a move consumes that
      direction's keys. Then x moves 20% of the way to the lane's x. Outside
      a run it does nothing. */
  function HandleInput(playing: bool, p: Player, keys: set<Key>): (r: (Player, set<Key>))
    requires ValidLane(p.lane)
    ensures !playing ==> r == (p, keys)
    ensures ValidLane(r.0.lane)
    ensures -1 <= r.0.lane - p.lane <= 1
    ensures playing && LeftHeld(keys) && !RightHeld(keys) ==>
              r.0.lane == (if p.lane == 0 then 0 else p.lane - 1)
    ensures playing && RightHeld(keys) && !LeftHeld(keys) ==>
              r.0.lane == (if p.lane == 2 then 2 else p.lane + 1)
    ensures playing && LeftHeld(keys) && RightHeld(keys) ==>
              r.0.lane == (if p.lane == 0 then 1 else p.lane)
    ensures !LeftHeld(keys) && !RightHeld(keys) ==> r.0.lane == p.lane && r.1 == keys
    ensures playing ==> r.1 == keys - (if LeftHeld(keys) && p.lane > 0 then LeftKeys else {})
                                    - (if RightHeld(keys) && (p.lane < 2 || LeftHeld(keys)) then RightKeys else {})
    ensures playing ==> r.0.x - LaneX(r.0.lane) as real == 0.8 * (p.x - LaneX(r.0.lane) as real)
    ensures r.0.y == p.y && r.0.isJumping == p.isJumping && r.0.jumpVelocity == p.jumpVelocity
  {
    if !playing then (p, keys)
    else
      var (lane1, keys1) :=
        if LeftHeld(keys) && p.lane > 0 then (p.lane - 1, keys - LeftKeys) else (p.lane, keys);
      var (lane2, keys2) :=
        if RightHeld(keys1) && lane1 < 2 then (lane1 + 1, keys1 - RightKeys) else (lane1, keys1);
      (p.(lane := lane2, x := Approach(p.x, LaneX(lane2) as real)), keys2)
  }

  /** Pressing left and right in the same tick from the centre lane moves
      down and straight back up: the lane is unchanged but both keys are
      consumed. */
  lemma LeftAndRightCancel(p: Player, keys: set<Key>)
    requires ValidLane(p.lane) && p.lane == 1
    requires LeftHeld(keys) && RightHeld(keys)
    ensures HandleInput(true, p, keys).0.lane == 1
    ensures !LeftHeld(HandleInput(true, p, keys).1) && !RightHeld(HandleInput(true, p, keys).1)
  {
  }

  /** A swipe, classified when the finger lifts: mostly vertical and more
      than 30 upward starts a jump (from the ground only); otherwise more
      than 50 left or right moves one lane that way, within the lanes. */
  function Swipe(p: Player, deltaX: real, deltaY: real): (r: Player)
    ensures ValidLane(p.lane) ==> ValidLane(r.lane)
    ensures Valid(p) ==> Valid(r)
    ensures r.x == p.x && r.y == p.y
    ensures -1 <= r.lane - p.lane <= 1
    ensures p.isJumping ==> r.isJumping
    ensures r.isJumping == p.isJumping ==> r.jumpVelocity == p.jumpVelocity
    ensures r.lane == p.lane - 1 <==> Abs(deltaY) <= Abs(deltaX) && deltaX < -SwipeLaneDistance && p.lane > 0
    ensures r.lane == p.lane + 1 <==> Abs(deltaY) <= Abs(deltaX) && deltaX > SwipeLaneDistance && p.lane < 2
    ensures r.lane != p.lane ==> Abs(deltaX) > SwipeLaneDistance
    ensures r.isJumping && !p.isJumping <==> Abs(deltaY) > Abs(deltaX) && deltaY < -SwipeJumpDistance && !p.isJumping
    ensures r.isJumping != p.isJumping ==> r.jumpVelocity == JumpPower && r.lane == p.lane
  {
    if Abs(deltaY) > Abs(deltaX) then
      if deltaY < -SwipeJumpDistance && !p.isJumping then
        p.(jumpVelocity := JumpPower, isJumping := true)
      else p
    else if deltaX < -SwipeLaneDistance && p.lane > 0 then
      p.(lane := p.lane - 1)
    else if deltaX > SwipeLaneDistance && p.lane < 2 then
      p.(lane := p.lane + 1)
    else p
  }
}

=== FILE: lanes.dfy ===
/** The playfield: an 800 x 600 canvas with three fixed lanes.
    A lane is an index 0 (left), 1 (centre) or 2 (right); each lane has a
    fixed x-coordinate that both the player and the entities in it use. */
module Lanes {

  const CanvasWidth: int := 800
  const CanvasHeight: int := 600

  /** The three lanes are numbered 0, 1 and 2. */
  predicate ValidLane(lane: int) {
    0 <= lane <= 2
  }

  /** The x-coordinate of a lane: 100 left of, 25 left of and 50 right of
      the canvas centre. The lanes are 75 apart, starting at 300. */
  function LaneX(lane: int): (x: int)
    requires ValidLane(lane)
    ensures x == 300 + 75 * lane
  {
    if lane == 0 then CanvasWidth / 2 - 100
    else if lane == 1 then CanvasWidth / 2 - 25
    else CanvasWidth / 2 + 50
  }

  /** Horizontal distance, as the game's `Math.abs`. */
  function Abs(a: real): real {
    if a < 0.0 then -a else a
  }

  /** Two different lanes are at least 75 apart horizontally. */
  lemma LanesApart(a: int, b: int)
    requires ValidLane(a) && ValidLane(b) && a != b
    ensures LaneX(a) - LaneX(b) >= 75 || LaneX(b) - LaneX(a) >= 75
  {
  }
}

=== FILE: player.dfy ===
/** The player: a 50 x 50 box that stands in one of the three lanes, glides
    horizontally toward its lane's x-coordinate and jumps under constant
    gravity. Position and velocity are exact reals here (see README). */
module Player {
  import opened Lanes

  const PlayerHeight: real := 50.0
  /** Ground level: 150 above the bottom of the canvas. */
  const GroundY: real := 450.0
  /** The vertical velocity a jump starts with (negative is up). */
  const JumpPower: real := -15.0
  const Gravity: real := 0.8
  /** The fraction of the remaining horizontal distance covered per tick. */
  const Smoothing: real := 0.2

  datatype Player = Player(x: real, y: real, lane: int, isJumping: bool, jumpVelocity: real)

  /** The player a run starts with: centre lane, on the ground, at rest. */
  function StartingPlayer(): Player {
    Player((CanvasWidth / 2 - 25) as real, GroundY, 1, false, 0.0)
  }

  /** The player invariant: in a lane, never below the ground, and on the
      ground at rest whenever not jumping. */
  predicate Valid(p: Player) {
    && ValidLane(p.lane)
    && p.y <= GroundY
    && (!p.isJumping ==> p.y == GroundY && p.jumpVelocity == 0.0)
  }

  lemma InitialValid()
    ensures Valid(StartingPlayer())
    ensures StartingPlayer().x == LaneX(StartingPlayer().lane) as real
  {
  }

  /** One tick of horizontal smoothing: x moves 20% of the way to the target. */
  function Approach(x: real, target: real): (r: real)
    ensures r - target == 0.8 * (x - target)
    ensures x <= target ==> x <= r <= target
    ensures target <= x ==> target <= r <= x
    ensures r == target <==> x == target
  {
    x + (target - x) * Smoothing
  }

  /** A jump request: starts a jump only from the ground. */
  function StartJump(p: Player): (r: Player)
    ensures p.isJumping ==> r == p
    ensures !p.isJumping ==> r.isJumping && r.jumpVelocity == JumpPower
    ensures r.x == p.x && r.y == p.y && r.lane == p.lane
    ensures Valid(p) ==> Valid(r)
  {
    if p.isJumping then p
    else p.(jumpVelocity := JumpPower, isJumping := true)
  }

  /** A second jump request while airborne changes nothing. */
  lemma StartJumpIdempotent(p: Player)
    ensures StartJump(StartJump(p)) == StartJump(p)
    ensures StartJump(p).isJumping
  {
  }

  /** One tick of jump physics: semi-implicit Euler integration, clamped at
      the ground, where the jump ends. */
  function UpdatePlayer(p: Player): (r: Player)
    ensures !p.isJumping ==> r == p
    ensures p.isJumping ==> r.y <= GroundY
    ensures p.isJumping && p.y + p.jumpVelocity < GroundY ==>
              r.isJumping && r.y == p.y + p.jumpVelocity && r.jumpVelocity == p.jumpVelocity + Gravity
    ensures p.isJumping && p.y + p.jumpVelocity >= GroundY ==>
              !r.isJumping && r.y == GroundY && r.jumpVelocity == 0.0
    ensures r.isJumping ==> r.y < GroundY
    ensures r.x == p.x && r.lane == p.lane
    ensures Valid(p) ==> Valid(r)
  {
    if p.isJumping then
      var q := p.(y := p.y + p.jumpVelocity, jumpVelocity := p.jumpVelocity + Gravity);
      if q.y >= GroundY then q.(y := GroundY, isJumping := false, jumpVelocity := 0.0)
      else q
    else p
  }

  /** The player after n ticks of jump physics. */
  function Fall(p: Player, n: nat): Player
  {
    if n == 0 then p else UpdatePlayer(Fall(p, n - 1))
  }

  /** The vertical velocity n ticks after take-off, while airborne. */
  function ArcVelocity(n: nat): real
  {
    JumpPower + Gravity * (n as real)
  }

  /** The height gained n ticks after take-off (negative is up), while
      airborne: the sum of the velocities of the earlier ticks. */
  function ArcRise(n: nat): real
  {
    if n == 0 then 0.0 else ArcRise(n - 1) + ArcVelocity(n - 1)
  }

  /** The sum in closed form: -15n + 0.4n(n-1). */
  lemma {:induction false} ArcRiseClosedForm(n: nat)
    ensures ArcRise(n) == -15.0 * (n as real) + 0.4 * (n as real) * (n as real - 1.0)
  {
    if n > 0 {
      ArcRiseClosedForm(n - 1);
      var m := (n - 1) as real;
      assert 0.4 * (m + 1.0) * m == 0.4 * m * (m - 1.0) + 0.8 * m;
    }
  }

  /** Rising phase: the velocity is upward for the first 19 ticks, so the
      height climbs from 15 above the ground to the peak on tick 19. */
  lemma {:induction false} ArcRisingPhase(n: nat)
    requires 1 <= n <= 19
    ensures ArcRise(19) <= ArcRise(n) <= -15.0
    decreases 19 - n
  {
    ArcRiseBelowStart(n);
    if n < 19 {
      ArcRisingPhase(n + 1);
      assert ArcRise(n + 1) == ArcRise(n) + ArcVelocity(n);
    }
  }

  lemma {:induction false} ArcRiseBelowStart(n: nat)
    requires 1 <= n <= 19
    ensures ArcRise(n) <= -15.0
  {
    if n > 1 {
      ArcRiseBelowStart(n - 1);
    }
  }

  /** Falling phase: from tick 19 the velocity is downward, so the height
      drops from the peak to 7.6 above the ground on tick 38. */
  lemma {:induction false} ArcFallingPhase(n: nat)
    requires 19 <= n <= 38
    ensures ArcRise(19) <= ArcRise(n) <= ArcRise(38)
    decreases 38 - n
  {
    ArcAbovePeak(n);
    if n < 38 {
      ArcFallingPhase(n + 1);
      assert ArcRise(n + 1) == ArcRise(n) + ArcVelocity(n);
    }
  }

  lemma {:induction false} ArcAbovePeak(n: nat)
    requires 19 <= n <= 38
    ensures ArcRise(19) <= ArcRise(n)
  {
    if n > 19 {
      ArcAbovePeak(n - 1);
    }
  }

  /** The arc at the three ticks that matter: the peak, the last airborne
      tick and the landing tick. */
  lemma ArcLandmarks()
    ensures ArcRise(19) == -148.2
    ensures ArcRise(38) == -7.6
    ensures ArcRise(39) == 7.8
  {
    ArcRiseClosedForm(19);
    ArcRiseClosedForm(38);
    ArcRiseClosedForm(39);
  }

  /** Between take-off and tick 38 the player is above the ground. */
  lemma ArcAboveGround(n: nat)
    requires 0 < n <= 38
    ensures ArcRise(n) < 0.0
  {
    ArcLandmarks();
    if n <= 19 {
      ArcRisingPhase(n);
    } else {
      ArcFallingPhase(n);
    }
  }

  /** The jump arc tick by tick: n ticks after take-off, while n <= 38, the
      player is airborne at GroundY + ArcRise(n) with velocity ArcVelocity(n),
      in the same lane and at the same x. */
  lemma {:induction false} JumpArc(p: Player, n: nat)
    requires Valid(p) && !p.isJumping
    requires n <= 38
    ensures Fall(StartJump(p), n) == Player(p.x, GroundY + ArcRise(n), p.lane, true, ArcVelocity(n))
  {
    if n > 0 {
      JumpArc(p, n - 1);
      ArcAboveGround(n);
    }
  }

  /** A jump from the ground lasts exactly 39 ticks: the player is airborne
      and above the ground for ticks 1 to 38 and is back on the ground, at
      rest and where it started, on tick 39. */
  lemma JumpLands(p: Player)
    requires Valid(p) && !p.isJumping
    ensures forall n: nat :: 1 <= n <= 38 ==> Fall(StartJump(p), n).isJumping && Fall(StartJump(p), n).y < GroundY
    ensures Fall(StartJump(p), 39) == p
  {
    forall n: nat | 1 <= n <= 38
      ensures Fall(StartJump(p), n).isJumping && Fall(StartJump(p), n).y < GroundY
    {
      JumpArc(p, n);
      ArcAboveGround(n);
    }
    JumpArc(p, 38);
    ArcLandmarks();
  }

  /** The peak of the arc: the player rises at most 148.2 above the ground,
      and reaches that height 19 ticks after take-off. */
  lemma JumpPeak(p: Player, n: nat)
    requires Valid(p) && !p.isJumping
    requires n <= 38
    ensures Fall(StartJump(p), n).y >= GroundY - 148.2
    ensures n == 19 ==> Fall(StartJump(p), n).y == GroundY - 148.2
  {
    JumpArc(p, n);
    ArcLandmarks();
    if n == 0 {
    } else if n <= 19 {
      ArcRisingPhase(n);
    } else {
      ArcFallingPhase(n);
    }
  }

  /** a^n for a real a. */
  function Power(a: real, n: nat): real
  {
    if n == 0 then 1.0 else a * Power(a, n - 1)
  }

  /** x after n ticks of smoothing toward a fixed target. */
  function Glide(x: real, target: real, n: nat): real
  {
    if n == 0 then x else Approach(Glide(x, target, n - 1), target)
  }

  /** Exponential decay: after n ticks the remaining distance to the target
      is 0.8^n of the initial distance, and x never passes the target. */
  lemma {:induction false} GlideDecay(x: real, target: real, n: nat)
    ensures Glide(x, target, n) - target == Power(0.8, n) * (x - target)
    ensures x <= target ==> x <= Glide(x, target, n) <= target
    ensures target <= x ==> target <= Glide(x, target, n) <= x
  {
    if n > 0 {
      GlideDecay(x, target, n - 1);
      var g := Glide(x, target, n - 1);
      assert Approach(g, target) - target == 0.8 * (g - target);
      assert 0.8 * (Power(0.8, n - 1) * (x - target)) == Power(0.8, n) * (x - target);
    }
  }

  /** 0.8^n is positive and shrinks as n grows. */
  lemma {:induction false} PowerShrinks(n: nat, k: nat)
    requires k <= n
    ensures 0.0 < Power(0.8, n) <= Power(0.8, k)
    decreases n
  {
    if n > 0 {
      PowerShrinks(n - 1, if k < n then k else n - 1);
    }
  }

  /** Starting at most one lane spacing (75) from the target, x is within
      75 * 0.8^n of it after n ticks. */
  lemma {:induction false} GlideWithin(x: real, target: real, n: nat)
    requires Abs(x - target) <= 75.0
    ensures Abs(Glide(x, target, n) - target) <= 75.0 * Power(0.8, n)
  {
    if n > 0 {
      GlideWithin(x, target, n - 1);
      var g := Glide(x, target, n - 1);
      assert Approach(g, target) - target == 0.8 * (g - target);
      assert 75.0 * Power(0.8, n) == 0.8 * (75.0 * Power(0.8, n - 1));
    }
  }

  /** After a one-lane change the glide settles: within 38.4 of the new
      lane's x from the third tick on, within 30.72 from the fourth and
      within 24.576 from the fifth. */
  lemma GlideSettles(x: real, target: real, n: nat)
    requires Abs(x - target) <= 75.0
    ensures n >= 3 ==> Abs(Glide(x, target, n) - target) <= 38.4
    ensures n >= 4 ==> Abs(Glide(x, target, n) - target) <= 30.72
    ensures n >= 5 ==> Abs(Glide(x, target, n) - target) <= 24.576
  {
    GlideWithin(x, target, n);
    assert Power(0.8, 1) == 0.8;
    assert Power(0.8, 2) == 0.64;
    assert Power(0.8, 3) == 0.512;
    assert Power(0.8, 4) == 0.4096;
    assert Power(0.8, 5) == 0.32768;
    if n >= 5 {
      PowerShrinks(n, 5);
    } else if n >= 3 {
      PowerShrinks(n, 3);
      PowerShrinks(n, n);
    }
  }
}

=== FILE: spawner.dfy ===
/** The spawner: each tick of a run it may add one obstacle and one coin
    at the top of a uniformly chosen lane. Random numbers are not drawn
    here; the caller supplies the stream of draws in [0, 1), and each
    spawner consumes the draws it needs from the front of it, in the
    order the game draws them. */
module Spawner {
  import opened Lanes
  import opened Entities

  /** The chance per tick that an obstacle appears. */
  const ObstacleChance: real := 0.02
  /** The chance per tick that a coin appears. */
  const CoinChance: real := 0.03
  /** A new obstacle is tall when its kind draw is above this. */
  const TallAbove: real := 0.7

  /** A random draw, as produced by the host: in [0, 1). */
  predicate IsDraw(r: real) {
    0.0 <= r < 1.0
  }

  predicate ValidDraws(draws: seq<real>) {
    forall i :: 0 <= i < |draws| ==> IsDraw(draws[i])
  }

  /** The lane a draw selects: floor(3r). Each lane takes a third of [0, 1). */
  function LaneOf(r: real): (lane: int)
    requires IsDraw(r)
    ensures ValidLane(lane)
    ensures (lane as real) / 3.0 <= r < ((lane + 1) as real) / 3.0
  {
    (r * 3.0).Floor
  }

  /** Draws a spawn chance; on success draws a lane and a kind and appends a
      50-high obstacle, 50 above the top of the canvas. Returns the list and
      the unused draws. */
  function SpawnObstacle(obstacles: seq<Entity>, draws: seq<real>): (r: (seq<Entity>, seq<real>))
    requires ValidDraws(draws)
    requires |draws| >= 1 && (draws[0] < ObstacleChance ==> |draws| >= 3)
    ensures draws[0] >= ObstacleChance ==> r == (obstacles, draws[1..])
    ensures draws[0] < ObstacleChance ==>
              && |r.0| == |obstacles| + 1
              && r.0[..|obstacles|] == obstacles
              && r.1 == draws[3..]
              && var o := r.0[|obstacles|];
                 && o.Obstacle?
                 && InLane(o)
                 && (o.lane as real) / 3.0 <= draws[1] < ((o.lane + 1) as real) / 3.0
                 && o.y == ObstacleStartY && o.width == ObstacleWidth && o.height == ObstacleHeight
                 && (o.kind == Tall <==> draws[2] > TallAbove)
    ensures ValidDraws(r.1)
  {
    if draws[0] < ObstacleChance then
      var lane := LaneOf(draws[1]);
      var kind := if draws[2] > TallAbove then Tall else Normal;
      (obstacles + [Obstacle(LaneX(lane), ObstacleStartY, ObstacleWidth, ObstacleHeight, lane, kind)], draws[3..])
    else (obstacles, draws[1..])
  }

  /** Draws a spawn chance; on success draws a lane and appends a 30 x 30
      coin, 30 above the top of the canvas. Returns the list and the unused
      draws. */
  function SpawnCoin(coins: seq<Entity>, draws: seq<real>): (r: (seq<Entity>, seq<real>))
    requires ValidDraws(draws)
    requires |draws| >= 1 && (draws[0] < CoinChance ==> |draws| >= 2)
    ensures draws[0] >= CoinChance ==> r == (coins, draws[1..])
    ensures draws[0] < CoinChance ==>
              && |r.0| == |coins| + 1
              && r.0[..|coins|] == coins
              && r.1 == draws[2..]
              && var c := r.0[|coins|];
                 && c.Coin?
                 && InLane(c)
                 && (c.lane as real) / 3.0 <= draws[1] < ((c.lane + 1) as real) / 3.0
                 && c.y == CoinStartY && c.width == CoinSize && c.height == CoinSize
    ensures ValidDraws(r.1)
  {
    if draws[0] < CoinChance then
      var lane := LaneOf(draws[1]);
      (coins + [Coin(LaneX(lane), CoinStartY, CoinSize, CoinSize, lane)], draws[2..])
    else (coins, draws[1..])
  }
}

=== FILE: updater.dfy ===
/** The entity updater: each tick every obstacle and coin falls by the game
    speed, a tall obstacle takes its tall height, and whatever has fallen
    past the bottom of the canvas is removed. */
module Updater {
  import opened Entities

  /** One entity after one tick of falling. */
  function Fallen(e: Entity, speed: int): (r: Entity)
    ensures r.y == e.y + speed
    ensures r.x == e.x && r.lane == e.lane && r.width == e.width
    ensures r.Obstacle? == e.Obstacle? && (r.Obstacle? ==> r.kind == e.kind)
    ensures r.Obstacle? && r.kind == Tall ==> r.height == TallHeight
    ensures !(r.Obstacle? && r.kind == Tall) ==> r.height == e.height
  {
    var e' := e.(y := e.y + speed);
    if e'.Obstacle? && e'.kind == Tall then e'.(height := TallHeight) else e'
  }

  /** The reference definition of one update of a list: fall, then keep, in
      order, exactly the entities still on or above the bottom. */
  function Advance(es: seq<Entity>, speed: int): (r: seq<Entity>)
    ensures |r| <= |es|
    ensures forall i :: 0 <= i < |r| ==> r[i].y <= Bottom
    ensures forall i :: 0 <= i < |r| ==> (r[i].Obstacle? && r[i].kind == Tall ==> r[i].height == TallHeight)
  {
    if es == [] then []
    else
      var e := Fallen(es[0], speed);
      (if e.y > Bottom then [] else [e]) + Advance(es[1..], speed)
  }

  /** The update as the game performs it: walk the list from the back,
      update each entity in place and splice it out when off-screen. */
  method UpdateEntities(es: seq<Entity>, speed: int) returns (r: seq<Entity>)
    ensures r == Advance(es, speed)
  {
    r := es;
    var i := |es| - 1;
    while i >= 0
      invariant -1 <= i < |es|
      invariant r == es[..i + 1] + Advance(es[i + 1..], speed)
    {
      AdvanceStep(es, i, speed);
      ghost var kept := Advance(es[i + 1..], speed);
      assert r[..i] == es[..i] && r[i] == es[i] && r[i + 1..] == kept;
      var e := Fallen(r[i], speed);
      if e.y > Bottom {
        r := r[..i] + r[i + 1..];
      } else {
        r := r[..i] + [e] + r[i + 1..];
      }
      i := i - 1;
    }
    assert es[0..] == es;
  }

  /** One step of the backward walk: the entity at index i joins the
      updated suffix after it. */
  lemma AdvanceStep(es: seq<Entity>, i: int, speed: int)
    requires 0 <= i < |es|
    ensures es[..i + 1] == es[..i] + [es[i]]
    ensures Advance(es[i..], speed) ==
              (if Fallen(es[i], speed).y > Bottom then [] else [Fallen(es[i], speed)]) + Advance(es[i + 1..], speed)
  {
    assert es[i..][1..] == es[i + 1..];
  }

  /** The update works element by element: survivors keep their relative
      order. */
  lemma {:induction false} AdvanceAppend(a: seq<Entity>, b: seq<Entity>, speed: int)
    ensures Advance(a + b, speed) == Advance(a, speed) + Advance(b, speed)
  {
    if a == [] {
      assert a + b == b;
    } else {
      assert (a + b)[1..] == a[1..] + b;
      AdvanceAppend(a[1..], b, speed);
    }
  }

  /** An entity survives the update iff it is one of the old entities,
      fallen by the speed, and not below the bottom. */
  lemma {:induction false} AdvanceMembers(es: seq<Entity>, speed: int, e: Entity)
    ensures e in Advance(es, speed) <==>
              (exists i :: 0 <= i < |es| && e == Fallen(es[i], speed)) && e.y <= Bottom
  {
    if es != [] {
      AdvanceMembers(es[1..], speed, e);
      if e in Advance(es[1..], speed) {
        var i :| 0 <= i < |es[1..]| && e == Fallen(es[1..][i], speed);
        assert e == Fallen(es[i + 1], speed);
      }
      if exists i :: 0 <= i < |es| && e == Fallen(es[i], speed) {
        var i :| 0 <= i < |es| && e == Fallen(es[i], speed);
        if i > 0 {
          assert e == Fallen(es[1..][i - 1], speed);
        }
      }
    }
  }

  /** Settled entities that fall stay settled: still in their lanes, not
      below the bottom, tall obstacles at their tall height. */
  lemma {:induction false} AdvanceSettles(es: seq<Entity>, speed: int)
    requires forall i :: 0 <= i < |es| ==> InLane(es[i])
    ensures forall i :: 0 <= i < |Advance(es, speed)| ==> Settled(Advance(es, speed)[i])
  {
    if es != [] {
      AdvanceSettles(es[1..], speed);
    }
  }

  /** Constructors are kept: a list of obstacles stays a list of
      obstacles, a list of coins a list of coins. */
  lemma {:induction false} AdvanceKeepsKind(es: seq<Entity>, speed: int, obstacles: bool)
    requires forall i :: 0 <= i < |es| ==> es[i].Obstacle? == obstacles
    ensures forall i :: 0 <= i < |Advance(es, speed)| ==> Advance(es, speed)[i].Obstacle? == obstacles
  {
    if es != [] {
      AdvanceKeepsKind(es[1..], speed, obstacles);
    }
  }
}
